=== FILE: README.md ===
# Online store: cart, checkout and registration core

This project models the business logic behind the cart, checkout and
registration handlers of a small Go online-store backend (`main.go`), with
the HTTP, database and JWT layers stripped away. The database becomes an
in-memory store (`OnlineStore.Store`) holding

- `products`: product id to stock quantity and unit price,
- `customers`: id, username and password, in insertion order,
- `cart`: cart lines (id, customer id, product id, quantity), in insertion order,
- `orders`: an append-only sequence,

plus two counters that stand in for auto-increment primary keys. The
state-changing handlers are methods on that store. Viewing the cart is a
function of it, and login is a function of the customers. Each answers with a
`Result` whose error cases are the handler's error responses (`Unauthorized`, `NotFound`, `Forbidden`,
`Conflict`, `InsufficientBalance`, `InsufficientStock`, `Internal`).

The model follows what the code does, including where a better design would
differ:

- Add-to-cart always appends a new line owned by the caller. It does not merge
  lines for the same product. It does not check the quantity or whether the
  product exists.
- Checkout compares the cart total with a balance that is never loaded and is
  therefore always 0. Only a cart whose total is at most 0 gets past that check.
- Checkout has no transaction. Pass two decrements stock and writes orders one
  line at a time, re-reading each product. A stock failure at line n keeps the
  work done for lines 0..n-1 and leaves the cart in place.
- Orders record the product's unit price, not price times quantity.
- A negative quantity passes the stock check and raises the stock.

Files:

- `outcomes.dfy`: `Option`, `Failure` and `Result`.
- `model.dfy` (module `StoreModel`): the records, and the read-only queries as
  functions: a customer's cart, a line by id, a customer by username, the
  credential check, token resolution and login. It also holds the lemmas
  relating the cart views before and after an insert, a delete or a bulk
  delete.
- `checkout.dfy` (module `CheckoutModel`): checkout as functions of the
  starting state. `AccumulateTotal` is pass one, `Purchase` is pass two and
  `CheckoutEffect` is the whole handler. The lemmas cover stock, orders,
  partial failure and cart clearing.
- `store.dfy` (module `OnlineStore`): the store class. Its methods are proved
  against the functions above. `PriceLines` and `ApplyLines` are the two loops
  of checkout.

## Model

| member | source | states |
|---|---|---|
| `StoreModel.CartOf` | main.go:118-119 | The caller's view holds exactly the cart lines whose customer id is the caller's. |
| `StoreModel.RemoveLinesOf` | main.go:258 | The bulk delete keeps exactly the lines of other customers. |
| `StoreModel.CartOfCountsLines` | main.go:118-119 | The caller's view holds each of the caller's lines exactly as many times as the cart does (once per stored row), and no other line. |
| `StoreModel.RemoveLinesOfCountsLines` | main.go:258 | After the bulk delete, each line of another customer is kept exactly as many times as before, and none of the caller's lines remain. |
| `StoreModel.FindLine` | main.go:168-173 | Lookup by primary key finds a position holding a line with that id, and returns none exactly when no line has it. |
| `StoreModel.FindCustomer` | main.go:354-357 | The username query returns the first customer with that username, and none exactly when no customer has it. |
| `StoreModel.FindByCredentials` | main.go:304-309 | The login query returns a customer matching both username and password, and none exactly when no customer matches both. |
| `StoreModel.Authenticate` | main.go:335-360 | A request acts for a customer only when its token names a username that some customer still holds. A rejected token or a vanished username gives no customer. |
| `StoreModel.Login` | main.go:293-321 | Login yields a token for the username exactly when some customer has that username and password. Otherwise it is Unauthorized. |
| `StoreModel.LoginThenAuthenticate` | main.go:304-311 | With unique usernames, the token from a successful login resolves to a customer with the very credentials that were checked. |
| `StoreModel.RegisterKeepsUsernamesUnique` | main.go:277-284 | Appending a customer whose username the uniqueness query did not find keeps all usernames distinct. |
| `StoreModel.RegisteredCustomerCanSignIn` | main.go:284-290 | After a registration, login with the new credentials succeeds, and the token resolves to the new customer. |
| `StoreModel.AddedLineJoinsOwnersView` | main.go:143-144 | An inserted line is appended to its owner's view, the earlier lines stay (no merge), and every other customer's view is unchanged. |
| `StoreModel.RemovedLineLeavesOwnersView` | main.go:175-181 | Deleting the line at position k removes exactly that line from its owner's view, keeping the lines before and after it. |
| `StoreModel.RemovedLineKeepsOtherViews` | main.go:175-181 | Deleting a line changes no other customer's view. |
| `StoreModel.DropLineKeepsIdOrder` | main.go:181 | After deleting a line, ids stay unique and ordered, and no line with the deleted id remains. |
| `StoreModel.RemoveLinesOfClearsOnlyOwner` | main.go:258 | After the bulk delete, the caller's view is empty and every other customer's view is as before. |
| `CheckoutModel.AccumulateTotal` | main.go:207-217 | Pass one fails exactly when some line's product is missing. Otherwise it returns the sum of unit price times quantity. |
| `CheckoutModel.Purchase` | main.go:226-254 | Pass two keeps the set of products. It only appends orders, at most one per line. Quantities are unbounded (see Left out). |
| `CheckoutModel.PurchaseRecordsEachLine` | main.go:243-253 | Each line that pass two gets through appends one order, in line order. The order holds the caller, the line's product and quantity, and the unit price. The pass completes exactly when every line got an order. |
| `CheckoutModel.PurchaseStopsAtFirstShortLine` | main.go:226-238 | When pass two stops at line n, products and orders equal the result of running lines 0..n-1 alone. Line n asked for more than the stock those lines left. |
| `CheckoutModel.PurchaseAccountsForStock` | main.go:240-253 | For every product, new stock equals old stock minus the quantities in the orders pass two added for it. |
| `CheckoutModel.PurchaseKeepsStockNonNegative` | main.go:234-241 | Pass two never makes a stock negative, for unbounded integers (the 64-bit wrap is listed under Left out). |
| `CheckoutModel.CheckoutAs` | main.go:207-262 | The checkout definition for a caller already resolved from the token; the `CheckoutModel.Checkout*` lemmas below are stated over it. Its own contract: a refusal is Internal, InsufficientBalance or InsufficientStock. The cart changes only on success. The set of products is kept and orders are only appended. |
| `CheckoutModel.CheckoutEffect` | main.go:193-267 | The whole checkout handler, with the token resolved first. It answers Unauthorized exactly when the token resolves to no customer. The cart changes only on success, the set of products is kept and orders are only appended. |
| `CheckoutModel.CheckoutOutcome` | main.go:207-262 | For a resolved caller, checkout answers Internal exactly when one of the caller's lines names a missing product. It answers InsufficientBalance exactly when every product is found and the total is positive. It succeeds exactly when every product is found, the total is at most zero and every line passes the stock check. |
| `CheckoutModel.CheckoutRejectsPositiveTotal` | main.go:219-224 | For an authenticated caller whose priced cart total is positive, checkout answers InsufficientBalance and changes nothing. |
| `CheckoutModel.CheckoutRefusalsChangeNothing` | main.go:193-224 | Unauthorized, Internal and InsufficientBalance answers leave products, cart and orders as they were. |
| `CheckoutModel.CheckoutKeepsStockNonNegative` | main.go:226-241 | Checkout keeps every stock non-negative, for unbounded integers (the 64-bit wrap is listed under Left out). |
| `CheckoutModel.CheckoutOrdersMatchDecrements` | main.go:240-253 | Checkout only appends orders and keeps the set of products. Every product's stock drops by exactly the quantity its new orders record. |
| `CheckoutModel.CheckoutStockFailureKeepsEarlierLines` | main.go:226-238 | On InsufficientStock at line n, the decrements and orders of lines 0..n-1 stay, line n and later lines are not applied, and the cart is unchanged. |
| `CheckoutModel.CheckoutSuccessClearsOnlyCallersCart` | main.go:243-262 | A successful checkout adds one order per cart line of the caller, in cart order, at unit price. It empties the caller's view and leaves other customers' views unchanged. |
| `CheckoutModel.SameProductLinesShareStock` | main.go:226-241 | Example (one concrete run): two lines for one product are checked against the stock the first one left. With 3 in stock, lines of 2 and 2 sell 2 and then stop. |
| `CheckoutModel.NegativeQuantityRaisesStock` | main.go:234-240 | Example (one concrete run): a line with quantity -5 passes the stock check, raises the stock by 5 and records an order of -5. |
| `OnlineStore.Store.constructor` | main.go:83 | The state of a freshly migrated database with empty tables, into which a catalog has been seeded: the given catalog, no customers, cart lines or orders, and the store invariant holds. |
| `OnlineStore.Store.ViewCart` | main.go:110-126 | Unauthorized exactly when the token does not resolve. Otherwise the result holds exactly the caller's cart lines, each as many times as the cart holds it. |
| `OnlineStore.Store.AddToCart` | main.go:128-151 | Appends exactly one line with a fresh id, owned by the caller whatever customer id the request carried. Product and quantity are copied unchecked. Existing lines are untouched. Unauthorized changes nothing. |
| `OnlineStore.Store.DeleteFromCart` | main.go:153-190 | An unknown id gives NotFound and another customer's line gives Forbidden, both with the cart unchanged. Otherwise exactly that line is removed and no line with its id remains. |
| `OnlineStore.Store.PriceLines` | main.go:207-217 | The loop's result is pass one's: none if a product is missing, else the sum of price times quantity. |
| `OnlineStore.Store.ApplyLines` | main.go:226-254 | The loop leaves products, orders and completion exactly as pass two's specification does. Stock stays non-negative, for unbounded integers (see Left out). |
| `OnlineStore.Store.Checkout` | main.go:192-267 | The handler's answer and the new products, cart and orders are those of `CheckoutEffect`. The store invariant is kept and customers are untouched. |
| `OnlineStore.Store.Register` | main.go:269-291 | A taken username gives Conflict and changes nothing. Otherwise one customer with the next id is appended and usernames stay unique. |

## Left out

- HTTP routing, status codes, JSON rendering, `main` and the database connection in `initDB` (main.go:56-82) are I/O. `AutoMigrate` (main.go:83) does not empty existing tables; the constructor models only a fresh database. How the catalog gets into it is outside the code. Each error response is a `Failure` case instead.
- Request-body decoding and the integer parsing of path parameters (the 400 responses) are left out. Inputs arrive already typed. The model takes no id or timestamps from a request body; ids always come from the store's counters. The code would use them. `BodyParser` (main.go:137, 271) fills the embedded `gorm.Model` fields, and `Create` (main.go:144, 284) inserts a non-zero primary key as given. So a client-chosen id would be used, and insertion order would no longer be id order. A taken id would give the 500 at main.go:144-148 or 284-288. A non-null `DeletedAt` would insert a row that no query sees. The fresh-id clauses of `AddToCart` and `Register` and the id-order reading of "lines 0..n-1" hold only for bodies without these keys.
- GORM and MySQL are replaced by sequences and a map. Soft deletes become removals. Auto-increment ids are counters starting at 1. Orders carry no id or timestamps.
- A failing database write or query is not modelled. This covers the 500 responses at main.go:120-123, 144-148, 181-185, 201-205, 249-253, 258-262 and 284-288. The ignored error of the product save at main.go:241 is also not modelled. If the quantity column is narrower than 64 bits (a 32-bit `INT`, say), a decrement that leaves the stock outside the column's range makes that save fail silently. The order is then still written but the stock is unchanged, while the model always applies the decrement.
- Username and password comparisons are exact string equality. Case-insensitive database collation is not modelled. Under it, a username query (main.go:278, 355) would match usernames that differ only in case. The login query (main.go:305) compares `password = ?` under the same collation, so a password differing only in case would also log in.
- JWT signing and verification, the 24-hour expiry and `createToken` (main.go:323-352) are library and clock calls. A token is abstracted to `Bearer(username)` or `Unverifiable`. The Internal answer when signing fails (main.go:311-316) is not modelled.
- Float parsing of prices (main.go:215-216): a price is a non-negative integer. Fractional and negative prices are not modelled. A price with a syntax error is represented by 0. Non-finite prices are outside the model: an out-of-range string such as `1e400` parses to an infinity (its error is discarded), and `NaN` or `Inf` parse without error. A NaN total makes the balance check at main.go:220 pass whatever the cart costs. The code sums in float64 (main.go:216), which rounds beyond 2^53. With price 1, lines of quantity 2^53+1 and -2^53 total 0 in the code and pass the balance check, while the model's exact sum is 1 and gives InsufficientBalance. An order copies the raw price string (main.go:247), so an unparseable price is recorded as its text rather than 0.
- The re-read of a product in pass two (main.go:228-232) cannot fail. Pass one read the same products, and nothing removes products. The model proves this with an assertion instead of carrying the unreachable Internal branch.
- The assignment `userBalance -= totalPrice` (main.go:256) writes a local variable that is never read, so it has no effect.
- The catalog handlers `getProductList` and `getProduct` (main.go:86-108) are plain reads of the products map and are not part of this model.
- Concurrency and transactional isolation are left out. The handlers run one at a time, and the model adds no atomicity that the code lacks.
- Passwords are stored and compared in plain text, as in the code.
- A better design would merge cart lines, reject non-positive quantities, make checkout all-or-nothing and load a real balance. The code does none of these, and the model follows the code.
- The cart queries (main.go:119, 201) have no ORDER BY, so the database is free to return the caller's lines in any order. The model walks them in insertion order, which is also id order. "Lines 0..n-1" and "cart order" in the checkout lemmas refer to that order.
- Stock and cart-line quantities are Go `int` (64 bits) but unbounded integers here. The wrap-around of `product.Quantity -= item.Quantity` (main.go:240) is not modelled. Add-to-cart accepts any quantity, so, where the quantity columns hold 64 bits, a line of quantity `math.MinInt64` passes the stock check and wraps a stock of 0 to -2^63. With narrower columns, the save failure described above applies instead. The model instead gives +2^63 and success.
- Purchase: does not model the 64-bit wrap of the decrement at main.go:240; its stock results agree with the code only while no decrement overflows.
- ApplyLines: does not model the 64-bit wrap at main.go:240; its "stock stays non-negative" holds for the code only where the decrement does not overflow.
- PurchaseKeepsStockNonNegative: holds for the code only where no decrement at main.go:240 overflows 64 bits; with 64-bit columns, a line quantity of `math.MinInt64` makes the code's stock negative.
- CheckoutKeepsStockNonNegative: the same restriction, and likewise the stock part of the store invariant that `Store.Checkout` keeps.

=== FILE: checkout.dfy ===
/**
 * What checkout does to the store, as functions of the state it starts from.
 * Pass one prices the caller's cart; the total is compared with a balance
 * that is always zero; pass two walks the lines one by one, re-reading each
 * product, checking its stock, decrementing it and recording an order; only
 * when every line went through is the caller's cart deleted. Nothing wraps
 * the passes in a transaction, so a stock failure keeps the work of the
 * lines before it.
 */
module CheckoutModel {
  import opened Outcomes
  import opened StoreModel

  /** The balance checkout compares the total with: the handler declares it and never loads it. */
  const UserBalance: int := 0

  /** Every line names a product of the catalog. */
  ghost predicate AllPriced(lines: seq<CartLine>, catalog: set<ProductId>) {
    lines == [] || (lines[0].productId in catalog && AllPriced(lines[1..], catalog))
  }

  /** Sum of unit price times quantity over the lines. */
  function LinesTotal(lines: seq<CartLine>, products: map<ProductId, Product>): int
    requires AllPriced(lines, products.Keys)
  {
    if lines == [] then 0
    else products[lines[0].productId].price * lines[0].quantity + LinesTotal(lines[1..], products)
  }

  /** Pass one: add each line's price times quantity to `total`, or fail when
      a line's product cannot be read. */
  function AccumulateTotal(lines: seq<CartLine>, products: map<ProductId, Product>, total: int): (r: Option<int>)
    ensures r.Some? <==> AllPriced(lines, products.Keys)
    ensures r.Some? ==> r.value == total + LinesTotal(lines, products)
  {
    if lines == [] then Some(total)
    else if lines[0].productId !in products then None
    else AccumulateTotal(lines[1..], products, total + products[lines[0].productId].price * lines[0].quantity)
  }

  /** Where pass two stopped: the products and orders it left, and whether
      every line went through. */
  datatype Progress = Progress(products: map<ProductId, Product>, orders: seq<Order>, complete: bool)

  /** Pass two for `buyer`: each line re-reads its product, stops the pass when
      the stock is below the line's quantity, and otherwise saves the reduced
      stock and appends one order. */
  function Purchase(products: map<ProductId, Product>, orders: seq<Order>, buyer: CustomerId,
                    lines: seq<CartLine>): (r: Progress)
    requires AllPriced(lines, products.Keys)
    ensures r.products.Keys == products.Keys
    ensures |orders| <= |r.orders| <= |orders| + |lines|
    ensures r.orders[..|orders|] == orders
    decreases |lines|
  {
    if lines == [] then Progress(products, orders, true)
    else
      var line := lines[0];
      var product := products[line.productId];
      if product.quantity < line.quantity then Progress(products, orders, false)
      else
        var saved := product.(quantity := product.quantity - line.quantity);
        var updated := products[line.productId := saved];
        assert updated.Keys == products.Keys;
        Purchase(updated, orders + [Order(buyer, line.productId, line.quantity, saved.price)], buyer, lines[1..])
  }

  /** Total quantity of `id` over some orders. */
  function OrderedQuantity(orders: seq<Order>, id: ProductId): int {
    if orders == [] then 0
    else (if orders[0].productId == id then orders[0].quantity else 0) + OrderedQuantity(orders[1..], id)
  }

  /** Every line pass two gets through adds the order for that line, in line
      order, at the product's unit price; the pass is complete exactly when
      every line did. */
  lemma {:induction false} PurchaseRecordsEachLine(products: map<ProductId, Product>, orders: seq<Order>,
                                                   buyer: CustomerId, lines: seq<CartLine>)
    requires AllPriced(lines, products.Keys)
    ensures var r := Purchase(products, orders, buyer, lines);
      && (r.complete <==> |r.orders| == |orders| + |lines|)
      && forall k :: 0 <= k < |r.orders| - |orders| ==>
           && lines[k].productId in products
           && r.orders[|orders| + k] == Order(buyer, lines[k].productId, lines[k].quantity, products[lines[k].productId].price)
    decreases |lines|
  {
    if lines != [] {
      var line := lines[0];
      var product := products[line.productId];
      if product.quantity >= line.quantity {
        var saved := product.(quantity := product.quantity - line.quantity);
        var products' := products[line.productId := saved];
        var orders' := orders + [Order(buyer, line.productId, line.quantity, saved.price)];
        assert products'.Keys == products.Keys;
        PurchaseRecordsEachLine(products', orders', buyer, lines[1..]);
        var r := Purchase(products', orders', buyer, lines[1..]);
        forall k | 0 <= k < |r.orders| - |orders|
          ensures && lines[k].productId in products
                  && r.orders[|orders| + k] == Order(buyer, lines[k].productId, lines[k].quantity, products[lines[k].productId].price)
        {
          if k == 0 {
            assert r.orders[..|orders'|][|orders|] == orders'[|orders|];
          } else {
            assert r.orders[|orders'| + (k - 1)] == Order(buyer, lines[1..][k - 1].productId, lines[1..][k - 1].quantity, products'[lines[1..][k - 1].productId].price);
          }
        }
      }
    }
  }

  /** When pass two stops, it stops at line `n`, the first whose quantity
      exceeds the stock left by lines 0..n-1: the products and orders are
      exactly those of running the first n lines, and line n and every later
      line left nothing behind. */
  lemma {:induction false} PurchaseStopsAtFirstShortLine(products: map<ProductId, Product>, orders: seq<Order>,
                                                         buyer: CustomerId, lines: seq<CartLine>)
    requires AllPriced(lines, products.Keys)
    requires !Purchase(products, orders, buyer, lines).complete
    ensures var r := Purchase(products, orders, buyer, lines);
      var n := |r.orders| - |orders|;
      && n < |lines|
      && AllPriced(lines[..n], products.Keys)
      && Purchase(products, orders, buyer, lines[..n]) == Progress(r.products, r.orders, true)
      && lines[n].productId in r.products
      && r.products[lines[n].productId].quantity < lines[n].quantity
    decreases |lines|
  {
    var line := lines[0];
    var product := products[line.productId];
    if product.quantity >= line.quantity {
      var saved := product.(quantity := product.quantity - line.quantity);
      var products' := products[line.productId := saved];
      var orders' := orders + [Order(buyer, line.productId, line.quantity, saved.price)];
      var r := Purchase(products', orders', buyer, lines[1..]);
      assert products'.Keys == products.Keys;
      assert Purchase(products, orders, buyer, lines) == r;
      PurchaseStopsAtFirstShortLine(products', orders', buyer, lines[1..]);
      var n := |r.orders| - |orders|;
      var prefix := lines[..n];
      assert prefix[0] == line;
      assert prefix[1..] == lines[1..][..n - 1];
      assert AllPriced(prefix, products.Keys);
      assert Purchase(products, orders, buyer, prefix) == Purchase(products', orders', buyer, prefix[1..]);
      assert lines[1..][n - 1] == lines[n];
    } else {
      assert lines[..0] == [];
    }
  }

  /** Every unit of stock pass two removes is recorded in an order it added:
      a product's new stock is its old stock less the quantities of the new
      orders for it. */
  lemma {:induction false} PurchaseAccountsForStock(products: map<ProductId, Product>, orders: seq<Order>,
                                                    buyer: CustomerId, lines: seq<CartLine>)
    requires AllPriced(lines, products.Keys)
    ensures var r := Purchase(products, orders, buyer, lines);
      forall id :: id in products ==>
        r.products[id].quantity == products[id].quantity - OrderedQuantity(r.orders[|orders|..], id)
    decreases |lines|
  {
    var r := Purchase(products, orders, buyer, lines);
    if lines == [] || products[lines[0].productId].quantity < lines[0].quantity {
      assert r.orders[|orders|..] == [];
    } else {
      var line := lines[0];
      var product := products[line.productId];
      var saved := product.(quantity := product.quantity - line.quantity);
      var products' := products[line.productId := saved];
      var order := Order(buyer, line.productId, line.quantity, saved.price);
      var orders' := orders + [order];
      assert products'.Keys == products.Keys;
      PurchaseAccountsForStock(products', orders', buyer, lines[1..]);
      assert r.orders[..|orders'|][|orders|] == order;
      assert r.orders[|orders|..] == [order] + r.orders[|orders'|..];
      assert r.orders[|orders|..][1..] == r.orders[|orders'|..];
    }
  }

  /** Pass two never drives a stock below zero: it decrements only after
      checking that the stock covers the line. */
  lemma {:induction false} PurchaseKeepsStockNonNegative(products: map<ProductId, Product>, orders: seq<Order>,
                                                         buyer: CustomerId, lines: seq<CartLine>)
    requires AllPriced(lines, products.Keys)
    requires NonNegativeStock(products)
    ensures NonNegativeStock(Purchase(products, orders, buyer, lines).products)
    decreases |lines|
  {
    if lines != [] {
      var line := lines[0];
      var product := products[line.productId];
      if product.quantity >= line.quantity {
        var saved := product.(quantity := product.quantity - line.quantity);
        assert products[line.productId := saved].Keys == products.Keys;
        PurchaseKeepsStockNonNegative(products[line.productId := saved],
          orders + [Order(buyer, line.productId, line.quantity, saved.price)], buyer, lines[1..]);
      }
    }
  }

  /** The store's collections after a checkout, and the handler's answer. */
  datatype CheckoutResult = CheckoutResult(outcome: Result<()>, products: map<ProductId, Product>,
                                           cart: seq<CartLine>, orders: seq<Order>)

  /** Checkout for a caller already resolved from the token: price the
      caller's lines, refuse a total above the balance, run pass two, and
      delete the caller's lines only when every line went through. */
  function CheckoutAs(products: map<ProductId, Product>, cart: seq<CartLine>, orders: seq<Order>,
                      buyer: CustomerId): (r: CheckoutResult)
    ensures r.outcome.Err? ==> r.outcome.failure in {Internal, InsufficientBalance, InsufficientStock}
    ensures r.outcome.Ok? || r.cart == cart
    ensures r.products.Keys == products.Keys
    ensures |orders| <= |r.orders| && r.orders[..|orders|] == orders
  {
    var lines := CartOf(cart, buyer);
    match AccumulateTotal(lines, products, 0)
    case None => CheckoutResult(Err(Internal), products, cart, orders)
    case Some(total) =>
      if UserBalance < total then CheckoutResult(Err(InsufficientBalance), products, cart, orders)
      else
        var pass := Purchase(products, orders, buyer, lines);
        if pass.complete then CheckoutResult(Ok(()), pass.products, RemoveLinesOf(cart, buyer), pass.orders)
        else CheckoutResult(Err(InsufficientStock), pass.products, cart, pass.orders)
  }

  /** The whole checkout handler, from the store it starts in. */
  function CheckoutEffect(products: map<ProductId, Product>, customers: seq<Customer>, cart: seq<CartLine>,
                          orders: seq<Order>, token: Token): (r: CheckoutResult)
    ensures r.outcome == Err(Unauthorized) <==> Authenticate(customers, token).None?
    ensures r.outcome.Ok? || r.cart == cart
    ensures r.products.Keys == products.Keys
    ensures |orders| <= |r.orders| && r.orders[..|orders|] == orders
  {
    match Authenticate(customers, token)
    case None => CheckoutResult(Err(Unauthorized), products, cart, orders)
    case Some(user) => CheckoutAs(products, cart, orders, user.id)
  }

  /** When each outcome of a checkout happens: Internal exactly when one of
      the caller's lines names a missing product, InsufficientBalance exactly
      for a priced cart with a positive total, and success exactly for a
      priced cart with a total of at most zero whose every line passes the
      stock check. */
  lemma {:induction false} CheckoutOutcome(products: map<ProductId, Product>, cart: seq<CartLine>,
                                           orders: seq<Order>, buyer: CustomerId)
    ensures var lines := CartOf(cart, buyer);
            var r := CheckoutAs(products, cart, orders, buyer);
      && (r.outcome == Err(Internal) <==> !AllPriced(lines, products.Keys))
      && (r.outcome == Err(InsufficientBalance) <==>
            AllPriced(lines, products.Keys) && LinesTotal(lines, products) > 0)
      && (r.outcome.Ok? <==>
            AllPriced(lines, products.Keys) && LinesTotal(lines, products) <= 0
            && Purchase(products, orders, buyer, lines).complete)
  {
  }

  /** Any cart whose total is positive is refused for lack of balance, before
      any stock, order or cart changes. */
  lemma {:induction false} CheckoutRejectsPositiveTotal(products: map<ProductId, Product>, cart: seq<CartLine>,
                                                        orders: seq<Order>, buyer: CustomerId)
    requires AllPriced(CartOf(cart, buyer), products.Keys)
    requires LinesTotal(CartOf(cart, buyer), products) > 0
    ensures CheckoutAs(products, cart, orders, buyer) == CheckoutResult(Err(InsufficientBalance), products, cart, orders)
  {
  }

  /** Refusals for the token, for an unreadable product or for the balance
      happen before any write: the store is left as it was. */
  lemma {:induction false} CheckoutRefusalsChangeNothing(products: map<ProductId, Product>, customers: seq<Customer>,
                                                         cart: seq<CartLine>, orders: seq<Order>, token: Token)
    ensures var r := CheckoutEffect(products, customers, cart, orders, token);
      r.outcome in {Err(Unauthorized), Err(Internal), Err(InsufficientBalance)} ==>
        r.products == products && r.cart == cart && r.orders == orders
  {
  }

  /** Checkout never makes a stock negative. */
  lemma {:induction false} CheckoutKeepsStockNonNegative(products: map<ProductId, Product>, cart: seq<CartLine>,
                                                         orders: seq<Order>, buyer: CustomerId)
    requires NonNegativeStock(products)
    ensures NonNegativeStock(CheckoutAs(products, cart, orders, buyer).products)
  {
    var lines := CartOf(cart, buyer);
    if AccumulateTotal(lines, products, 0).Some? {
      PurchaseKeepsStockNonNegative(products, orders, buyer, lines);
    }
  }

  /** Orders are only ever appended, and every product's stock goes down by
      exactly the quantity the new orders record for it. */
  lemma {:induction false} CheckoutOrdersMatchDecrements(products: map<ProductId, Product>, cart: seq<CartLine>,
                                                         orders: seq<Order>, buyer: CustomerId)
    ensures var r := CheckoutAs(products, cart, orders, buyer);
      && |orders| <= |r.orders| && r.orders[..|orders|] == orders
      && r.products.Keys == products.Keys
      && forall id :: id in products ==>
           r.products[id].quantity == products[id].quantity - OrderedQuantity(r.orders[|orders|..], id)
  {
    var r := CheckoutAs(products, cart, orders, buyer);
    var lines := CartOf(cart, buyer);
    if AccumulateTotal(lines, products, 0).Some? {
      PurchaseAccountsForStock(products, orders, buyer, lines);
    } else {
      assert r.orders[|orders|..] == [];
    }
  }

  /** A stock failure at line n of the caller's cart keeps the decrements and
      orders of lines 0..n-1, leaves line n and later lines unapplied, and
      does not touch the cart. */
  lemma {:induction false} CheckoutStockFailureKeepsEarlierLines(products: map<ProductId, Product>, cart: seq<CartLine>,
                                                                 orders: seq<Order>, buyer: CustomerId)
    requires CheckoutAs(products, cart, orders, buyer).outcome == Err(InsufficientStock)
    ensures var r := CheckoutAs(products, cart, orders, buyer);
      var lines := CartOf(cart, buyer);
      var n := |r.orders| - |orders|;
      && AllPriced(lines, products.Keys)
      && n < |lines|
      && AllPriced(lines[..n], products.Keys)
      && Purchase(products, orders, buyer, lines[..n]) == Progress(r.products, r.orders, true)
      && lines[n].productId in r.products
      && r.products[lines[n].productId].quantity < lines[n].quantity
      && r.cart == cart
  {
    var lines := CartOf(cart, buyer);
    assert AccumulateTotal(lines, products, 0).Some?;
    var pass := Purchase(products, orders, buyer, lines);
    assert CheckoutAs(products, cart, orders, buyer)
           == CheckoutResult(Err(InsufficientStock), pass.products, cart, pass.orders);
    PurchaseStopsAtFirstShortLine(products, orders, buyer, lines);
  }

  /** A successful checkout records one order per line of the caller's cart,
      in cart order, deletes every line of the caller and no other line. */
  lemma {:induction false} CheckoutSuccessClearsOnlyCallersCart(products: map<ProductId, Product>, cart: seq<CartLine>,
                                                                orders: seq<Order>, buyer: CustomerId)
    requires CheckoutAs(products, cart, orders, buyer).outcome.Ok?
    ensures var r := CheckoutAs(products, cart, orders, buyer);
      var lines := CartOf(cart, buyer);
      && AllPriced(lines, products.Keys)
      && |r.orders| == |orders| + |lines|
      && (forall k :: 0 <= k < |lines| ==>
            lines[k].productId in products &&
            r.orders[|orders| + k] == Order(buyer, lines[k].productId, lines[k].quantity, products[lines[k].productId].price))
      && CartOf(r.cart, buyer) == []
      && forall other :: other != buyer ==> CartOf(r.cart, other) == CartOf(cart, other)
  {
    PurchaseRecordsEachLine(products, orders, buyer, CartOf(cart, buyer));
    RemoveLinesOfClearsOnlyOwner(cart, buyer);
  }

  /** Two lines for one product are checked against the stock the first one
      left: with 3 in stock, lines of 2 and 2 sell 2 and then stop. */
  lemma {:induction false} SameProductLinesShareStock()
    ensures var lines := [CartLine(1, 1, 7, 2), CartLine(2, 1, 7, 2)];
      Purchase(map[7 := Product(3, 10)], [], 1, lines)
        == Progress(map[7 := Product(1, 10)], [Order(1, 7, 2, 10)], false)
  {
    var lines := [CartLine(1, 1, 7, 2), CartLine(2, 1, 7, 2)];
    assert lines[1..] == [CartLine(2, 1, 7, 2)];
    assert map[7 := Product(3, 10)][7 := Product(1, 10)] == map[7 := Product(1, 10)];
  }

  /** Quantities are not validated: a line with a negative quantity passes the
      stock check and raises the stock. */
  lemma {:induction false} NegativeQuantityRaisesStock()
    ensures Purchase(map[7 := Product(0, 10)], [], 1, [CartLine(1, 1, 7, -5)])
            == Progress(map[7 := Product(5, 10)], [Order(1, 7, -5, 10)], true)
  {
    assert map[7 := Product(0, 10)][7 := Product(5, 10)] == map[7 := Product(5, 10)];
  }
}

=== FILE: model.dfy ===
/**
 * The records of the online store and the read-only queries its handlers run:
 * a customer's cart lines, a cart line by id, a customer by username, the
 * credential check of login and the token-to-customer resolution.
 */
module StoreModel {
  import opened Outcomes

  type ProductId = nat
  type CustomerId = nat

  /** A catalog row as the core sees it: stock on hand and unit price.
      The store keeps the price as a decimal string; here it is its value,
      and a price string with a syntax error counts as 0. */
  datatype Product = Product(quantity: int, price: nat)

  datatype Customer = Customer(id: CustomerId, username: string, password: string)

  /** One shopping-cart row. Several rows may name the same product, and the
      quantity is whatever the client sent. */
  datatype CartLine = CartLine(id: nat, customerId: CustomerId, productId: ProductId, quantity: int)

  /** The decoded body of an add-to-cart request. */
  datatype CartRequest = CartRequest(customerId: CustomerId, productId: ProductId, quantity: int)

  /** An order row; `totalAmount` is the product's unit price, not price times quantity. */
  datatype Order = Order(customerId: CustomerId, productId: ProductId, quantity: int, totalAmount: nat)

  /** A bearer token after its signature and expiry were checked: it either
      names a username or it is rejected. */
  datatype Token = Bearer(username: string) | Unverifiable

  ghost predicate NonNegativeStock(products: map<ProductId, Product>) {
    forall id :: id in products ==> products[id].quantity >= 0
  }

  ghost predicate UniqueUsernames(customers: seq<Customer>) {
    forall i, j :: 0 <= i < j < |customers| ==> customers[i].username != customers[j].username
  }

  ghost predicate LineIdsIncreasing(cart: seq<CartLine>) {
    forall i, j :: 0 <= i < j < |cart| ==> cart[i].id < cart[j].id
  }

  // ---------------------------------------------------------------- cart queries

  /** The lines of `owner`, kept in insertion order (the query itself leaves
      the order open): the `customer_id = ?` query of viewing the cart and of
      checkout. */
  function CartOf(cart: seq<CartLine>, owner: CustomerId): (r: seq<CartLine>)
    ensures |r| <= |cart|
    ensures forall l :: l in r <==> l in cart && l.customerId == owner
  {
    if cart == [] then []
    else if cart[0].customerId == owner then [cart[0]] + CartOf(cart[1..], owner)
    else CartOf(cart[1..], owner)
  }

  /** The cart after the bulk delete of every line of `owner`. */
  function RemoveLinesOf(cart: seq<CartLine>, owner: CustomerId): (r: seq<CartLine>)
    ensures |r| <= |cart|
    ensures forall l :: l in r <==> l in cart && l.customerId != owner
  {
    if cart == [] then []
    else if cart[0].customerId == owner then RemoveLinesOf(cart[1..], owner)
    else [cart[0]] + RemoveLinesOf(cart[1..], owner)
  }

  /** The caller's view holds each of the caller's lines exactly as often as
      the cart does, and no other line: the query returns every row once. */
  lemma {:induction false} CartOfCountsLines(cart: seq<CartLine>, owner: CustomerId)
    ensures forall l :: multiset(CartOf(cart, owner))[l] ==
                        if l.customerId == owner then multiset(cart)[l] else 0
    decreases |cart|
  {
    if cart != [] {
      CartOfCountsLines(cart[1..], owner);
      assert cart == [cart[0]] + cart[1..];
    }
  }

  /** The bulk delete keeps each line of other customers exactly as often as
      the cart held it, and none of the owner's. */
  lemma {:induction false} RemoveLinesOfCountsLines(cart: seq<CartLine>, owner: CustomerId)
    ensures forall l :: multiset(RemoveLinesOf(cart, owner))[l] ==
                        if l.customerId != owner then multiset(cart)[l] else 0
    decreases |cart|
  {
    if cart != [] {
      RemoveLinesOfCountsLines(cart[1..], owner);
      assert cart == [cart[0]] + cart[1..];
    }
  }

  /** The position of the cart line with primary key `id`, if there is one. */
  function FindLine(cart: seq<CartLine>, id: int): (r: Option<nat>)
    ensures r.Some? ==> r.value < |cart| && cart[r.value].id == id
    ensures r.None? <==> forall l :: l in cart ==> l.id != id
  {
    if cart == [] then None
    else if cart[0].id == id then Some(0)
    else match FindLine(cart[1..], id)
      case None => None
      case Some(k) => Some(k + 1)
  }

  lemma {:induction false} CartOfAppend(a: seq<CartLine>, b: seq<CartLine>, owner: CustomerId)
    ensures CartOf(a + b, owner) == CartOf(a, owner) + CartOf(b, owner)
  {
    if a == [] {
      assert a + b == b;
    } else {
      assert (a + b)[1..] == a[1..] + b;
      CartOfAppend(a[1..], b, owner);
    }
  }

  /** Adding a line puts it at the end of its owner's view and changes no other view. */
  lemma {:induction false} AddedLineJoinsOwnersView(cart: seq<CartLine>, line: CartLine)
    ensures CartOf(cart + [line], line.customerId) == CartOf(cart, line.customerId) + [line]
    ensures forall other :: other != line.customerId ==> CartOf(cart + [line], other) == CartOf(cart, other)
  {
    CartOfAppend(cart, [line], line.customerId);
    forall other | other != line.customerId
      ensures CartOf(cart + [line], other) == CartOf(cart, other)
    {
      CartOfAppend(cart, [line], other);
    }
  }

  /** The view of any customer splits around position `k`. */
  lemma {:induction false} SplitViewAt(cart: seq<CartLine>, k: nat, c: CustomerId)
    requires k < |cart|
    ensures CartOf(cart, c) == CartOf(cart[..k], c) + CartOf([cart[k]], c) + CartOf(cart[k + 1..], c)
    ensures CartOf(cart[..k] + cart[k + 1..], c) == CartOf(cart[..k], c) + CartOf(cart[k + 1..], c)
  {
    assert cart == cart[..k] + [cart[k]] + cart[k + 1..];
    CartOfAppend(cart[..k] + [cart[k]], cart[k + 1..], c);
    CartOfAppend(cart[..k], [cart[k]], c);
    CartOfAppend(cart[..k], cart[k + 1..], c);
  }

  /** Removing the line at `k` takes exactly that line out of its owner's view. */
  lemma {:induction false} RemovedLineLeavesOwnersView(cart: seq<CartLine>, k: nat)
    requires k < |cart|
    ensures var owner := cart[k].customerId;
      && CartOf(cart, owner) == CartOf(cart[..k], owner) + [cart[k]] + CartOf(cart[k + 1..], owner)
      && CartOf(cart[..k] + cart[k + 1..], owner) == CartOf(cart[..k], owner) + CartOf(cart[k + 1..], owner)
  {
    var owner := cart[k].customerId;
    SplitViewAt(cart, k, owner);
    assert CartOf([cart[k]], owner) == [cart[k]] + CartOf([], owner);
  }

  /** Removing the line at `k` changes no other customer's view. */
  lemma {:induction false} RemovedLineKeepsOtherViews(cart: seq<CartLine>, k: nat, other: CustomerId)
    requires k < |cart| && other != cart[k].customerId
    ensures CartOf(cart[..k] + cart[k + 1..], other) == CartOf(cart, other)
  {
    SplitViewAt(cart, k, other);
    assert CartOf([cart[k]], other) == CartOf([], other);
  }

  lemma {:induction false} RemoveLinesOfKeepsOthers(cart: seq<CartLine>, owner: CustomerId, other: CustomerId)
    requires other != owner
    ensures CartOf(RemoveLinesOf(cart, owner), other) == CartOf(cart, other)
  {
    if cart != [] {
      RemoveLinesOfKeepsOthers(cart[1..], owner, other);
      if cart[0].customerId != owner {
        assert ([cart[0]] + RemoveLinesOf(cart[1..], owner))[1..] == RemoveLinesOf(cart[1..], owner);
      }
    }
  }

  lemma {:induction false} RemoveLinesOfLeavesOwnerNothing(cart: seq<CartLine>, owner: CustomerId)
    ensures CartOf(RemoveLinesOf(cart, owner), owner) == []
  {
    if cart != [] {
      RemoveLinesOfLeavesOwnerNothing(cart[1..], owner);
      if cart[0].customerId != owner {
        assert ([cart[0]] + RemoveLinesOf(cart[1..], owner))[1..] == RemoveLinesOf(cart[1..], owner);
      }
    }
  }

  /** The bulk delete empties the owner's view and leaves every other view as it was. */
  lemma {:induction false} RemoveLinesOfClearsOnlyOwner(cart: seq<CartLine>, owner: CustomerId)
    ensures CartOf(RemoveLinesOf(cart, owner), owner) == []
    ensures forall other :: other != owner ==> CartOf(RemoveLinesOf(cart, owner), other) == CartOf(cart, other)
  {
    RemoveLinesOfLeavesOwnerNothing(cart, owner);
    forall other | other != owner
      ensures CartOf(RemoveLinesOf(cart, owner), other) == CartOf(cart, other)
    {
      RemoveLinesOfKeepsOthers(cart, owner, other);
    }
  }

  lemma {:induction false} RemoveLinesOfKeepsIdOrder(cart: seq<CartLine>, owner: CustomerId)
    requires LineIdsIncreasing(cart)
    ensures LineIdsIncreasing(RemoveLinesOf(cart, owner))
  {
    if cart != [] {
      var rest := RemoveLinesOf(cart[1..], owner);
      RemoveLinesOfKeepsIdOrder(cart[1..], owner);
      if cart[0].customerId != owner {
        var r := [cart[0]] + rest;
        forall i, j | 0 <= i < j < |r| ensures r[i].id < r[j].id {
          if i == 0 {
            assert r[j] in rest;
            assert r[j] in cart[1..];
          }
        }
      }
    }
  }

  /** Deleting one line keeps the ids in order, and no line with its id is left. */
  lemma {:induction false} DropLineKeepsIdOrder(cart: seq<CartLine>, k: nat)
    requires LineIdsIncreasing(cart) && k < |cart|
    ensures LineIdsIncreasing(cart[..k] + cart[k + 1..])
    ensures FindLine(cart[..k] + cart[k + 1..], cart[k].id).None?
  {
    var rest := cart[..k] + cart[k + 1..];
    forall i | 0 <= i < |rest| ensures rest[i] == cart[if i < k then i else i + 1] {
    }
    forall l | l in rest ensures l.id != cart[k].id {
      var i :| 0 <= i < |rest| && rest[i] == l;
    }
  }

  // ------------------------------------------------------------ customer queries

  /** The first customer with this username: the `username = ?` query of
      registration and of token resolution. */
  function FindCustomer(customers: seq<Customer>, username: string): (r: Option<nat>)
    ensures r.Some? ==> r.value < |customers| && customers[r.value].username == username
    ensures r.Some? ==> forall j :: 0 <= j < r.value ==> customers[j].username != username
    ensures r.None? <==> forall c :: c in customers ==> c.username != username
  {
    if customers == [] then None
    else if customers[0].username == username then Some(0)
    else match FindCustomer(customers[1..], username)
      case None => None
      case Some(k) => Some(k + 1)
  }

  /** The first customer whose username and password both match: login's query. */
  function FindByCredentials(customers: seq<Customer>, username: string, password: string): (r: Option<nat>)
    ensures r.Some? ==> r.value < |customers| && customers[r.value].username == username
                        && customers[r.value].password == password
    ensures r.None? <==> forall c :: c in customers ==> c.username != username || c.password != password
  {
    if customers == [] then None
    else if customers[0].username == username && customers[0].password == password then Some(0)
    else match FindByCredentials(customers[1..], username, password)
      case None => None
      case Some(k) => Some(k + 1)
  }

  /** The customer a request acts for: the token must name a username and
      some customer must still hold it. */
  function Authenticate(customers: seq<Customer>, token: Token): (r: Option<Customer>)
    ensures r.Some? ==> token.Bearer? && r.value in customers && r.value.username == token.username
    ensures r.None? <==> token.Unverifiable? || forall c :: c in customers ==> c.username != token.username
  {
    match token
    case Unverifiable => None
    case Bearer(username) =>
      match FindCustomer(customers, username)
      case None => None
      case Some(k) => Some(customers[k])
  }

  /** Login: a token for `username` exactly when some customer has that
      username and password. */
  function Login(customers: seq<Customer>, username: string, password: string): (r: Result<Token>)
    ensures r.Ok? <==> exists c :: c in customers && c.username == username && c.password == password
    ensures r.Ok? ==> r.value == Bearer(username)
    ensures r.Err? ==> r.failure == Unauthorized
  {
    match FindByCredentials(customers, username, password)
    case None => Err(Unauthorized)
    case Some(_) => Ok(Bearer(username))
  }

  /** A token from a successful login resolves to the very customer whose
      credentials were checked, as long as usernames are unique. */
  lemma {:induction false} LoginThenAuthenticate(customers: seq<Customer>, username: string, password: string)
    requires UniqueUsernames(customers)
    requires Login(customers, username, password).Ok?
    ensures var who := Authenticate(customers, Login(customers, username, password).value);
      who.Some? && who.value.username == username && who.value.password == password
  {
  }

  /** Registration's check keeps usernames unique. */
  lemma {:induction false} RegisterKeepsUsernamesUnique(customers: seq<Customer>, newcomer: Customer)
    requires UniqueUsernames(customers)
    requires FindCustomer(customers, newcomer.username).None?
    ensures UniqueUsernames(customers + [newcomer])
  {
    var all := customers + [newcomer];
    forall i, j | 0 <= i < j < |all| ensures all[i].username != all[j].username {
      if j == |customers| {
        assert all[i] in customers;
      }
    }
  }

  /** A newly registered customer can log in, and the token resolves to them. */
  lemma {:induction false} RegisteredCustomerCanSignIn(customers: seq<Customer>, newcomer: Customer)
    requires FindCustomer(customers, newcomer.username).None?
    ensures Login(customers + [newcomer], newcomer.username, newcomer.password) == Ok(Bearer(newcomer.username))
    ensures Authenticate(customers + [newcomer], Bearer(newcomer.username)) == Some(newcomer)
  {
    var all := customers + [newcomer];
    assert newcomer in all;
  }
}

=== FILE: outcomes.dfy ===
/** Optional values and the error kinds the store's handlers answer with. */
module Outcomes {

  datatype Option<+T> = None | Some(value: T)

  /** One case per error response of the handlers (the HTTP status is in the comment). */
  datatype Failure =
    | Unauthorized         // 401: no usable token, or its username has no customer
    | NotFound             // 404: the cart line does not exist
    | Forbidden            // 403: the cart line belongs to another customer
    | Conflict             // 409: the username is taken
    | InsufficientBalance  // 400: the cart total exceeds the balance
    | InsufficientStock    // 400: a product has less stock than a line asks for
    | Internal             // 500: a product named by a cart line cannot be read

  /** A handler's answer: the value it renders, or the error it reports. */
  datatype Result<+T> = Ok(value: T) | Err(failure: Failure)
}

=== FILE: store.dfy ===
/**
 * The in-memory store the handlers work on, in place of the database, and
 * one method per handler. Auto-increment primary keys are the two `next`
 * counters.
 */
module OnlineStore {
  import opened Outcomes
  import opened StoreModel
  import opened CheckoutModel

  ghost predicate CustomersWellFormed(customers: seq<Customer>, nextId: nat) {
    && UniqueUsernames(customers)
    && (forall i, j :: 0 <= i < j < |customers| ==> customers[i].id < customers[j].id)
    && (forall c :: c in customers ==> c.id < nextId)
  }

  ghost predicate CartWellFormed(cart: seq<CartLine>, nextId: nat) {
    && LineIdsIncreasing(cart)
    && (forall l :: l in cart ==> l.id < nextId)
  }

  class Store {
    var products: map<ProductId, Product>
    var customers: seq<Customer>
    var cart: seq<CartLine>
    var orders: seq<Order>
    var nextCustomerId: nat
    var nextLineId: nat

    /** Stock is never negative; customer ids and usernames are unique; cart
        line ids are unique and kept in insertion order. */
    ghost predicate Valid()
      reads this
    {
      && NonNegativeStock(products)
      && CustomersWellFormed(customers, nextCustomerId)
      && CartWellFormed(cart, nextLineId)
    }

    /** A store over a catalog, with no customers, cart lines or orders. */
    constructor (catalog: map<ProductId, Product>)
      requires NonNegativeStock(catalog)
      ensures Valid()
      ensures products == catalog && customers == [] && cart == [] && orders == []
      ensures nextCustomerId == 1 && nextLineId == 1
    {
      products := catalog;
      customers := [];
      cart := [];
      orders := [];
      nextCustomerId := 1;
      nextLineId := 1;
    }

    /** Viewing the cart: the caller's lines, and only those. */
    function ViewCart(token: Token): (r: Result<seq<CartLine>>)
      reads this
      ensures r.Err? <==> Authenticate(customers, token).None?
      ensures r.Err? ==> r.failure == Unauthorized
      ensures r.Ok? ==> forall l :: l in r.value <==>
        l in cart && l.customerId == Authenticate(customers, token).value.id
      ensures r.Ok? ==> forall l :: multiset(r.value)[l] ==
                                   if l.customerId == Authenticate(customers, token).value.id
                                   then multiset(cart)[l] else 0
    {
      match Authenticate(customers, token)
      case None => Err(Unauthorized)
      case Some(user) => CartOfCountsLines(cart, user.id); Ok(CartOf(cart, user.id))
    }

    /** Adding to the cart appends one new line owned by the caller, whatever
        customer id the request carried; it neither merges it with a line for
        the same product nor checks the product or the quantity. */
    method AddToCart(token: Token, request: CartRequest) returns (r: Result<CartLine>)
      requires Valid()
      modifies this
      ensures Valid()
      ensures products == old(products) && customers == old(customers) && orders == old(orders)
      ensures nextCustomerId == old(nextCustomerId)
      ensures var user := Authenticate(customers, token);
        if user.None? then r == Err(Unauthorized) && cart == old(cart) && nextLineId == old(nextLineId)
        else
          && r == Ok(CartLine(old(nextLineId), user.value.id, request.productId, request.quantity))
          && cart == old(cart) + [r.value]
          && nextLineId == old(nextLineId) + 1
    {
      var user := Authenticate(customers, token);
      if user.None? {
        return Err(Unauthorized);
      }
      var line := CartLine(nextLineId, user.value.id, request.productId, request.quantity);
      cart := cart + [line];
      nextLineId := nextLineId + 1;
      r := Ok(line);
    }

    /** Deleting a cart line: an unknown id is NotFound, another customer's
        line is Forbidden, and in both cases the cart is unchanged; otherwise
        exactly that line goes. */
    method DeleteFromCart(token: Token, lineId: int) returns (r: Result<()>)
      requires Valid()
      modifies this
      ensures Valid()
      ensures products == old(products) && customers == old(customers) && orders == old(orders)
      ensures nextCustomerId == old(nextCustomerId) && nextLineId == old(nextLineId)
      ensures var user := Authenticate(customers, token);
        var at := FindLine(old(cart), lineId);
        if user.None? then r == Err(Unauthorized) && cart == old(cart)
        else if at.None? then r == Err(NotFound) && cart == old(cart)
        else if old(cart)[at.value].customerId != user.value.id then r == Err(Forbidden) && cart == old(cart)
        else r == Ok(()) && cart == old(cart)[..at.value] + old(cart)[at.value + 1..]
      ensures r.Ok? ==> FindLine(cart, lineId).None?
    {
      var user := Authenticate(customers, token);
      if user.None? {
        return Err(Unauthorized);
      }
      var at := FindLine(cart, lineId);
      if at.None? {
        return Err(NotFound);
      }
      var k := at.value;
      if cart[k].customerId != user.value.id {
        return Err(Forbidden);
      }
      DropLineKeepsIdOrder(cart, k);
      cart := cart[..k] + cart[k + 1..];
      r := Ok(());
    }

    /** Pass one of checkout: the sum of unit price times quantity over the
        lines, or None as soon as a line's product cannot be read. */
    method PriceLines(lines: seq<CartLine>) returns (total: Option<int>)
      ensures total == AccumulateTotal(lines, products, 0)
      ensures total.Some? ==> AllPriced(lines, products.Keys) && total.value == LinesTotal(lines, products)
    {
      var sum := 0;
      var i := 0;
      while i < |lines|
        invariant 0 <= i <= |lines|
        invariant AccumulateTotal(lines[i..], products, sum) == AccumulateTotal(lines, products, 0)
      {
        var line := lines[i];
        assert lines[i..][1..] == lines[i + 1..];
        if line.productId !in products {
          return None;
        }
        sum := sum + products[line.productId].price * line.quantity;
        i := i + 1;
      }
      assert lines[i..] == [];
      total := Some(sum);
    }

    /** Pass two of checkout: for each line in turn, re-read the product,
        stop if its stock is below the line's quantity, otherwise save the
        reduced stock and append an order. Nothing is undone on a stop. */
    method ApplyLines(buyer: CustomerId, lines: seq<CartLine>) returns (complete: bool)
      requires AllPriced(lines, products.Keys)
      requires NonNegativeStock(products)
      modifies this`products, this`orders
      ensures NonNegativeStock(products)
      ensures Purchase(old(products), old(orders), buyer, lines) == Progress(products, orders, complete)
    {
      var i := 0;
      while i < |lines|
        invariant 0 <= i <= |lines|
        invariant NonNegativeStock(products)
        invariant AllPriced(lines[i..], products.Keys)
        invariant Purchase(products, orders, buyer, lines[i..]) == Purchase(old(products), old(orders), buyer, lines)
      {
        var line := lines[i];
        assert lines[i..][1..] == lines[i + 1..];
        // Pass one read this product and nothing removes products, so the
        // re-read at main.go:228 finds it.
        assert line.productId in products;
        var product := products[line.productId];
        if product.quantity < line.quantity {
          return false;
        }
        product := product.(quantity := product.quantity - line.quantity);
        products := products[line.productId := product];
        orders := orders + [Order(buyer, line.productId, line.quantity, product.price)];
        i := i + 1;
      }
      assert lines[i..] == [];
      complete := true;
    }

    /** Checkout, as the handler runs it: price the caller's lines, compare
        the total with the zero balance, apply the lines one at a time, and
        delete the caller's cart only after the last one. */
    method Checkout(token: Token) returns (r: Result<()>)
      requires Valid()
      modifies this
      ensures Valid()
      ensures customers == old(customers)
      ensures nextCustomerId == old(nextCustomerId) && nextLineId == old(nextLineId)
      ensures var effect := CheckoutEffect(old(products), old(customers), old(cart), old(orders), token);
        r == effect.outcome && products == effect.products && cart == effect.cart && orders == effect.orders
    {
      var user := Authenticate(customers, token);
      if user.None? {
        return Err(Unauthorized);
      }
      var buyer := user.value.id;
      var lines := CartOf(cart, buyer);
      var total := PriceLines(lines);
      if total.None? {
        return Err(Internal);
      }
      if UserBalance < total.value {
        return Err(InsufficientBalance);
      }
      var complete := ApplyLines(buyer, lines);
      if !complete {
        return Err(InsufficientStock);
      }
      RemoveLinesOfKeepsIdOrder(cart, buyer);
      cart := RemoveLinesOf(cart, buyer);
      r := Ok(());
    }

    /** Registration: a taken username is a Conflict and changes nothing;
        otherwise one customer is appended under a fresh id. */
    method Register(username: string, password: string) returns (r: Result<Customer>)
      requires Valid()
      modifies this
      ensures Valid()
      ensures products == old(products) && cart == old(cart) && orders == old(orders)
      ensures nextLineId == old(nextLineId)
      ensures FindCustomer(old(customers), username).Some? ==>
        r == Err(Conflict) && customers == old(customers) && nextCustomerId == old(nextCustomerId)
      ensures FindCustomer(old(customers), username).None? ==>
        && r == Ok(Customer(old(nextCustomerId), username, password))
        && customers == old(customers) + [r.value]
        && nextCustomerId == old(nextCustomerId) + 1
    {
      if FindCustomer(customers, username).Some? {
        return Err(Conflict);
      }
      var customer := Customer(nextCustomerId, username, password);
      RegisterKeepsUsernamesUnique(customers, customer);
      customers := customers + [customer];
      nextCustomerId := nextCustomerId + 1;
      r := Ok(customer);
    }
  }
}
